=== FILE: README.md ===
# files-finder-by-date, modelled in Dafny

`FilesFinderByDate` walks a directory tree and finds files whose modification,
creation or access time falls inside a date window. An optional extension
filter narrows the search. The finder appends one line per match to
`founded_table.txt`. When sorting is on, it also orders the matches and appends
two more reports: `founded_list_sorted.txt` and `founded_table_sorted.txt`.

This project models the decision logic of `files_finder_by_date.py` as pure
functions over immutable values. The file system, the clock and the
formatting library are inputs:

- `Extensions` (`extensions.dfy`) covers extension normalisation in the
  constructor, the file's own extension as POSIX `os.path.splitext` computes it,
  and the filter test.
- `Dates` (`dates.dfy`) covers how the window bounds are resolved: the
  midnight default for the start, and the padding of the end to 23:59:59 when
  times are not included.
- `Walker` (`walker.dfy`) models `_walker` as a fold over the entries the walk
  produced, in discovery order. Each entry has a path, an "exists" flag and
  three integer timestamps. A reference definition (`Selected`) says which
  entries are found. The fold is proved to compute the count, the appended table
  text and the optional record list from it. It also models the source as
  written when no extensions are given (see Findings).
- `Sorter` (`sorter.dfy`) models `_sorter`. It gives Python's string order
  and the (ctime, mtime, atime, path) key order, and proves that order total.
  An insertion sort is proved to return a sorted permutation. The sorted
  permutation is proved unique, so the model's result equals what
  `list.sort` returns. The two renderings and the two `"\n".join` blocks are
  modelled too.
- `Report` (`report.dfy`) covers the constructor as a whole, the run header
  and its legend-less list variant (`starting_text[:-67]`), and the framing of
  a missing or existing report file. It also models one `find_files` run over
  the three report files, each held as `Option<string>` contents.
- `Text` (`text.dfy`) and `Common` (`common.dfy`) hold ASCII lower-casing,
  `rfind`, `join` and an `Option` type.

Quirks reproduced on purpose:

- In the sorted table, the `mtime=` label shows the creation time and the
  `ctime=` label shows the modification time (`Sorter.SortedTableEntry`,
  `Sorter.SortedTableSwapsTimeLabels`).
- End-of-day padding resets hour, minute and second but keeps the
  microsecond. An end bound read from the clock therefore stays past
  23:59:59.000000 (`Dates.DefaultEndKeepsClockMicrosecond`).
- Both window bounds are open: a timestamp equal to a bound never matches
  (`Walker.BoundsAreExcluded`).

The class docstring promises that without extensions "all files will be
found" (files_finder_by_date.py:62-63). The code does not do this (see
Findings). The model follows the docstring in `Walker.Walk` and keeps the
code's behaviour in `Walker.WalkAsWritten`.

## Model

| member | source | states |
|---|---|---|
| Text.Lower | files_finder_by_date.py:107-109 | lower-casing keeps the length, lower-cases every character, and leaves no upper-case letter |
| Text.LowerIdempotent | files_finder_by_date.py:125 | lower-casing twice is the same as lower-casing once |
| Text.LastIndexOf | files_finder_by_date.py:125 | `rfind` gives -1 or an index holding the character, with no occurrence after it |
| Text.JoinThenSep | files_finder_by_date.py:162-165 | a `sep.join` plus one separator is every element followed by the separator, so the join only leaves off the final separator |
| Text.CountCharTerminated | files_finder_by_date.py:137-141 | newline-terminated lines with no newline of their own contain exactly one newline per line |
| Extensions.Normalize | files_finder_by_date.py:106-109 | a normalised extension starts with `.`, is lower-case, and ends with the lower-cased input; a dot is added exactly when the input had none |
| Extensions.NormalizeIdempotent | files_finder_by_date.py:107-109 | normalising twice is the same as normalising once |
| Extensions.NormalizeFixpoint | files_finder_by_date.py:107-109 | an extension is left unchanged exactly when it already starts with a dot and is lower-case |
| Extensions.NormalizeSpellings | files_finder_by_date.py:62-65 | "TXT", ".txt" and ".TXT" all become ".txt"; "md" and ".MD" become ".md" |
| Extensions.BuildFilter | files_finder_by_date.py:106-109 | no extensions give no filter; otherwise the filter is a non-empty set holding exactly the normalised forms of the given extensions |
| Extensions.SplitExt | files_finder_by_date.py:125 | root + extension is the path; a non-empty extension starts with its only `.` and has no `/` |
| Extensions.SplitExtNonEmptyIff | files_finder_by_date.py:125 | a path has an extension exactly when its last component has a `.` that some non-dot character comes before |
| Extensions.SplitExtScan | files_finder_by_date.py:125 | the leading-dot scan `splitext` performs gives the same split |
| Extensions.FileExt | files_finder_by_date.py:125 | a file's extension is empty, or it is lower-case, starts with `.` and has no other dot |
| Extensions.LastIndexOfAt | files_finder_by_date.py:125 | an index holding the character with no later occurrence is what `rfind` returns |
| Extensions.FileExtAt | files_finder_by_date.py:125 | when the last `.` comes after the last `/` with a non-dot character between them, the file's extension is the lower-cased text from that `.` on |
| Extensions.MultiDotNeverMatches | files_finder_by_date.py:107-129 | a given extension with a second dot (".tar.gz") never equals a file's extension |
| Extensions.AdmitsExt | files_finder_by_date.py:129-130 | without a filter (or with an empty one) every extension passes; with a non-empty filter exactly its members pass |
| Extensions.AdmitsBuiltFilterIff | files_finder_by_date.py:129-130 | with extensions given, a file passes the filter exactly when its lower-cased extension is the normalised form of one of them |
| Extensions.BuildFilterSingle | files_finder_by_date.py:106-109 | a filter built from one extension holds exactly its normalised form |
| Extensions.MarkdownFilterExample | files_finder_by_date.py:129-130 | with the filter built from "md", the extension ".md" passes and ".txt" does not |
| Extensions.MarkdownFilterSpellings | files_finder_by_date.py:106-109 | the filters built from ".MD" and from "md" are the same |
| Dates.PadEndOfDay | files_finder_by_date.py:102-104 | padding keeps the date and the microsecond, moves the time to 23:59:59, and never moves a valid bound earlier |
| Dates.PadIsLatestOfDay | files_finder_by_date.py:102-104 | the padded bound is the latest valid instant of its day with that microsecond |
| Dates.PadIdempotent | files_finder_by_date.py:102-104 | padding an already padded bound changes nothing |
| Dates.Midnight | files_finder_by_date.py:97-99 | the default start is at 00:00:00.000000 of its day, never after the reading it came from |
| Dates.FromDate | files_finder_by_date.py:94-95 | a date-only bound is its own midnight, on the given day, and a valid instant whenever the date is a real calendar date |
| Dates.ResolveStart | files_finder_by_date.py:95-99 | the start is the given bound, or the same day as the week-ago reading at 00:00:00.000000, never after that reading |
| Dates.ResolveEnd | files_finder_by_date.py:100-104 | the end is the given bound or the clock reading; without times it is padded to 23:59:59 of that day with the microsecond kept |
| Dates.DateOnlyWindowCoversWholeDays | files_finder_by_date.py:94-104 | date-only bounds run from 00:00:00.000000 of the start day to 23:59:59.000000 of the end day |
| Dates.DefaultEndKeepsClockMicrosecond | files_finder_by_date.py:100-104 | an end taken from the clock keeps the clock's sub-second part, so it lies after 23:59:59.000000 |
| Walker.Selected | files_finder_by_date.py:117-133 | the found entries are a sub-sequence of the walk, no longer than it |
| Walker.SelectedAppend | files_finder_by_date.py:117-118 | the entries found in one part of the walk come, in order, before those found in a later part |
| Walker.SelectedMembers | files_finder_by_date.py:120-133 | an entry is found exactly when it is in the walk, still exists, passes the filter and has a timestamp inside the window |
| Walker.Step | files_finder_by_date.py:120-141 | the chain of `continue`s is the found decision: a found entry adds one to the count, one line to the text and (when sorting) one record; any other entry changes nothing |
| Walker.Fold | files_finder_by_date.py:115-141 | the count never exceeds the number of entries, and the kept list has one record per match when sorting is on and none otherwise |
| Walker.TableLine | files_finder_by_date.py:138-141 | a table line is 32 characters of labels plus the path and the three formatted times |
| Walker.TableLineFields | files_finder_by_date.py:138-141 | a table line is `file=` and the path, then the `mtime=` label and the modification time, then the `ctime=` label and the creation time, and last the `atime=` label and the access time; nothing else |
| Walker.FoldIsSelected | files_finder_by_date.py:115-141 | the loop's count, text and kept list are the found entries' number, lines and records in discovery order |
| Walker.Walk | files_finder_by_date.py:111-142 | the count is the number of found entries, the text is one line each, the list holds their records when sorting is on and is `None` otherwise |
| Walker.WalkLoop | files_finder_by_date.py:115-142 | the imperative walk computes `Walk`, and with sorting on its list is as long as the count |
| Walker.SkippedEntryChangesNothing | files_finder_by_date.py:120-130 | a vanished file, or one the filter rejects, is never counted, written or listed, whatever its timestamps |
| Walker.BoundsAreExcluded | files_finder_by_date.py:131-133 | timestamps equal to the window's bounds never match |
| Walker.ListedIff | files_finder_by_date.py:134-136 | with sorting on, a record is listed exactly when a found entry produced it |
| Walker.WalkAppendOnly | files_finder_by_date.py:137-141 | the text written for part of the walk is a prefix of the text for the whole walk, and the count only grows |
| Walker.TableLineHasNoNewline | files_finder_by_date.py:138-141 | a table line has no newline of its own when the path and the formatted times have none |
| Walker.AppendedLineCount | files_finder_by_date.py:134-141 | if no path or formatted time contains a newline, the lines appended equal the returned count |
| Walker.FoundWithoutFilter | files_finder_by_date.py:120-133 | without a filter, a file is found exactly when it still exists and one of its timestamps is inside the window |
| Walker.WindowExample | files_finder_by_date.py:131-136 | with window (9, 15) and no filter, files modified on days 10 and 12 are found and the one modified on day 20 is not, whatever their paths |
| Walker.FoldAsWritten | files_finder_by_date.py:106-141 | the loop as written crashes only when no extensions were given, and then names a file that still exists |
| Walker.WalkAsWritten | files_finder_by_date.py:106-142 | `_walker` as written completes with the modelled walk when extensions were given, and raises `AttributeError` only when none were |
| Walker.AsWrittenCrashesWithoutFilter | files_finder_by_date.py:106-129 | as written, a walk without extensions fails exactly when some file still exists, and names the first such file |
| Walker.AsWrittenAgreesWithFilter | files_finder_by_date.py:129-130 | as written, a walk with extensions given is the modelled walk |
| Walker.NoExtensionsCounterexample | files_finder_by_date.py:129 | one existing file in the window and no extensions: as written the walk raises `AttributeError`, while the documented walk finds the file |
| Sorter.StrLess | files_finder_by_date.py:148 | one path sorts before another exactly when it is a proper prefix of it, or at the first position where they differ it has the smaller code point |
| Sorter.StrLessIrreflexive | files_finder_by_date.py:148 | no path sorts before itself |
| Sorter.StrLessTransitive | files_finder_by_date.py:148 | Python's string order is transitive |
| Sorter.StrLessTotal | files_finder_by_date.py:148 | two different paths are always ordered one way or the other |
| Sorter.StrLessAsymmetric | files_finder_by_date.py:148 | two paths are never each before the other |
| Sorter.KeyLess | files_finder_by_date.py:148 | the creation time decides first, then the modification time; a record never sorts before itself |
| Sorter.KeyLeTotal | files_finder_by_date.py:148 | any two records are ordered one way or the other by (ctime, mtime, atime, path) |
| Sorter.KeyLeAntisymmetric | files_finder_by_date.py:148 | two records each ordered before the other are the same record, since the key covers every field |
| Sorter.KeyLeTransitive | files_finder_by_date.py:148 | the (ctime, mtime, atime, path) order is transitive |
| Sorter.Insert | files_finder_by_date.py:148 | inserting into a sorted sequence keeps it sorted and adds exactly that record |
| Sorter.Sort | files_finder_by_date.py:148 | the sorted records are a permutation of the input, non-decreasing in (ctime, mtime, atime, path) |
| Sorter.SortedPermutationUnique | files_finder_by_date.py:148 | two sorted permutations of the same records are equal, so any correct sort gives the model's order |
| Sorter.ListEntry | files_finder_by_date.py:152-155 | a list entry is 39 characters of labels and newlines plus the path and the three formatted times |
| Sorter.ListEntryFields | files_finder_by_date.py:152-155 | a list entry is `file: ` and the path, then lines `created: ` with the creation time, `modified: ` with the modification time and `accessed: ` with the access time, ending in a newline; nothing else |
| Sorter.SortedTableEntry | files_finder_by_date.py:156-159 | a sorted-table entry is 44 characters of labels plus the path and the three formatted times |
| Sorter.SortedTableEntryFields | files_finder_by_date.py:156-159 | a sorted-table entry is `file=` and the path, then the `mtime=` label followed by the creation time, the `ctime=` label followed by the modification time, and last the `atime=` label and the access time; nothing else |
| Sorter.ListEntries | files_finder_by_date.py:151-160 | entry i of the list rendering is the list entry of record i, one per record, in order |
| Sorter.TableEntries | files_finder_by_date.py:151-161 | entry i of the table rendering is the sorted-table entry of record i, one per record, in order |
| Sorter.SortPass | files_finder_by_date.py:144-165 | the pass sorts a permutation of the records; the list block is the entries joined by "\n" plus "\n\n", and the table block is the entries joined by "\n" |
| Sorter.SortPassOrderIndependent | files_finder_by_date.py:148-165 | the blocks depend only on which records were found, not on the order they were found in |
| Sorter.SortPassBlockShapes | files_finder_by_date.py:162-165 | every list entry is followed by a newline, with one more at the end; table entries are separated by newlines with none at the end; with no records the list block is "\n\n" and the table block is empty |
| Sorter.SortedTableSwapsTimeLabels | files_finder_by_date.py:157-158 | the value after `mtime=` is the creation time and the value after `ctime=` the modification time in the sorted table, while in the primary table (lines 139-140) each label shows its own time |
| Report.Header | files_finder_by_date.py:179-183 | the run header is the three header lines, a newline, and the 66-character legend |
| Report.DropLast | files_finder_by_date.py:200 | `text[:-n]` is a prefix of the text, `n` characters shorter, or empty when the text is shorter than `n`; `text[:-0]` is empty |
| Report.ListHeader | files_finder_by_date.py:200 | the list header is the run header without its last 67 characters, followed by a blank line |
| Report.ListHeaderDropsLegend | files_finder_by_date.py:200-203 | the list header is the run's three header lines followed by a blank line, with no legend |
| Report.Frame | files_finder_by_date.py:184-189 | a missing report becomes exactly the header; an existing one keeps its content, followed by "\n\n\n" and the header |
| Report.Init | files_finder_by_date.py:83-109 | the start is the given bound or 00:00:00.000000 on the week-ago reading's day; without times the end is 23:59:59 on its day with the microsecond kept; valid inputs give valid bounds; the filter is absent exactly when no extensions were given and otherwise holds exactly the normalised forms of the given extensions |
| Report.FindFiles | files_finder_by_date.py:167-210 | the run's count is the number of found entries; the table report gets its frame plus one line per match; the sorted reports change only when sorting is on |
| Report.RunOnlyAppends | files_finder_by_date.py:184-209 | every report that existed before a run keeps its content as a prefix |
| Report.SortedReportsHoldTheWalkedRecords | files_finder_by_date.py:193-210 | with sorting on, the sorted reports get their frames plus the sort pass over exactly the records of the primary table, reordered |
| Report.EmptyRunWritesHeaderOnly | files_finder_by_date.py:184-191 | a first run with no matches creates the table report holding exactly the header and counts zero |
| Report.NothingSelected | files_finder_by_date.py:117-133 | when no entry passes, nothing is found |
| Report.RerunAppendsAgain | files_finder_by_date.py:184-191 | running again over the same files leaves the earlier table as it was and appends the separator, a new header and the same lines |

## Left out

- Directory enumeration (`os.walk`), `os.path.exists` and `os.path.getctime`/`getmtime`/`getatime` are file-system I/O. The walk's output is a given sequence of entries, each with an "exists" flag and three timestamps. What "ctime" means on a platform is whatever the entry carries.
- Files deleted concurrently during the walk are reduced to the per-entry "exists" flag.
- `os.walk` skipping unreadable directories is part of the enumeration and is not modelled.
- `strptime`, `datetime.now()`, `timedelta(days=7)` and time zones are library calls and the ambient clock. Parsed bounds, the clock reading and the reading minus seven days are inputs to `Report.Init`. A parse failure (`ValueError`) is not modelled. An empty bound string counts as not given.
- `datetime.timestamp()` is the parameter `stamp`. `str(datetime)` is the parameter `show`. `time.ctime` is the parameter `fmt`. `str(datetime.now())` in the header is the string `startedAt`.
- Timestamps are integers rather than floats. Only their order matters to the model.
- `Dates.Valid` bounds the day by the month's length but does not check that the padded or midnight values round-trip through a real calendar library.
- `os.chdir`, `os.path.abspath`, `os.getcwd`, `os.path.join` of the output file names, the `print` summary and opening and closing files are process and I/O plumbing. Reports are modelled only by their contents.
- The deferred `import` of `itemgetter` has no effect on behaviour.
- An `extensions` argument that is a truthy but empty iterable (an exhausted generator) gives an empty filter set. `Extensions.AdmitsExt` treats that as "match everything", as the source's `if self._extensions` does. `Extensions.BuildFilter` takes a sequence, so this case is not produced.
- Text.Lower: lower-cases ASCII letters only, because Python's full Unicode `str.lower` case mapping is not modelled.
- Paths are Dafny strings: sequences of Unicode scalar values. A lone surrogate cannot appear in them. On POSIX, `os.walk` decodes a file name that is not valid UTF-8 into such surrogates. Such names are not modelled, nor is their write at line 138, which plausibly raises `UnicodeEncodeError` there.
- Walker.TableLine: the function's own contract states only the length. The full field layout is stated by `Walker.TableLineFields`. Field positions in the function's ensures would be unfolded inside every walk proof and make those proofs much more expensive.
- Sorter.ListEntry: as for `Walker.TableLine`, the layout is stated by `Sorter.ListEntryFields`, not by the function's own ensures.
- Sorter.SortedTableEntry: as for `Walker.TableLine`, the layout is stated by `Sorter.SortedTableEntryFields`, not by the function's own ensures.
- Extensions.SplitExt: models POSIX `os.path.splitext` (separator `/`, no alternative separator), because the Windows variant is platform-specific.

## Findings

| source | as written | input that shows it | evidently intended | confidence | as-written member | corrected member |
|---|---|---|---|---|---|---|
| files_finder_by_date.py:106-109, 129 | `self._extensions` is assigned only when `extensions` is truthy, but line 129 reads it for every file that still exists | no extensions given and one existing file inside the window | the docstring at lines 62-63 says "if None - all files will be found": no filter, every extension passes | high (not executed) | Walker.NoExtensionsCounterexample | Walker.Walk |

=== FILE: common.dfy ===
/** Shared optional-value datatype: stands for Python's `None` versus a present value. */
module Common {

  datatype Option<+T> = None | Some(value: T) {

    /** The present value, or `default` when there is none. */
    function GetOr(default: T): (r: T)
      ensures Some? ==> r == value
      ensures None? ==> r == default
    {
      match this
      case Some(v) => v
      case None => default
    }
  }
}

=== FILE: dates.dfy ===
/** The search window as the finder's constructor resolves it
    (files_finder_by_date.py:94-104): date fields of a naive
    `datetime.datetime`, the midnight default for the start, and the
    end-of-day padding of the end when times are not given. Parsing with
    `strptime`, the clock and `timedelta` stay outside: their results arrive
    as `DateTime` values. */
module Dates {
  import opened Common

  /** The fields of a naive `datetime.datetime`. */
  datatype DateTime = DateTime(
    year: int, month: int, day: int,
    hour: int, minute: int, second: int, microsecond: int)

  function DaysInMonth(year: int, month: int): int
  {
    if month == 2 then
      (if (year % 4 == 0 && year % 100 != 0) || year % 400 == 0 then 29 else 28)
    else if month == 4 || month == 6 || month == 9 || month == 11 then 30
    else 31
  }

  /** The ranges `datetime.datetime` enforces on its fields. */
  predicate Valid(d: DateTime) {
    && 1 <= d.year <= 9999
    && 1 <= d.month <= 12
    && 1 <= d.day <= DaysInMonth(d.year, d.month)
    && 0 <= d.hour < 24
    && 0 <= d.minute < 60
    && 0 <= d.second < 60
    && 0 <= d.microsecond < 1000000
  }

  predicate SameDate(a: DateTime, b: DateTime) {
    a.year == b.year && a.month == b.month && a.day == b.day
  }

  /** Microseconds since the start of the day. */
  function MicrosOfDay(d: DateTime): int {
    ((d.hour * 60 + d.minute) * 60 + d.second) * 1000000 + d.microsecond
  }

  /** The last whole second of a day, 23:59:59, in microseconds. */
  const EndOfDaySecond: int := 86399 * 1000000

  /** `replace(hour=23, minute=59, second=59)`: the end bound moved to the
      last second of its day. The microsecond is NOT reset, so a bound taken
      from the clock keeps its sub-second part. */
  function PadEndOfDay(d: DateTime): (r: DateTime)
    ensures SameDate(r, d) && r.microsecond == d.microsecond
    ensures MicrosOfDay(r) == EndOfDaySecond + d.microsecond
    ensures Valid(d) ==> Valid(r) && MicrosOfDay(d) <= MicrosOfDay(r)
  {
    d.(hour := 23, minute := 59, second := 59)
  }

  /** Of all valid instants on the same day with the same microsecond, the
      padded bound is the latest. */
  lemma PadIsLatestOfDay(d: DateTime, e: DateTime)
    requires Valid(e) && SameDate(d, e) && e.microsecond == d.microsecond
    ensures MicrosOfDay(e) <= MicrosOfDay(PadEndOfDay(d))
  {
  }

  /** Padding an already padded bound changes nothing. */
  lemma PadIdempotent(d: DateTime)
    ensures PadEndOfDay(PadEndOfDay(d)) == PadEndOfDay(d)
  {
  }

  /** `replace(hour=0, minute=0, second=0, microsecond=0)`: the start of the day. */
  function Midnight(d: DateTime): (r: DateTime)
    ensures SameDate(r, d) && MicrosOfDay(r) == 0
    ensures r.hour == 0 && r.minute == 0 && r.second == 0 && r.microsecond == 0
    ensures Valid(d) ==> Valid(r) && MicrosOfDay(r) <= MicrosOfDay(d)
  {
    d.(hour := 0, minute := 0, second := 0, microsecond := 0)
  }

  /** What `strptime` yields for a "YYYY-MM-DD" string: that day at 00:00:00. */
  function FromDate(year: int, month: int, day: int): (r: DateTime)
    ensures r.year == year && r.month == month && r.day == day
    ensures MicrosOfDay(r) == 0
    ensures Midnight(r) == r
    ensures 1 <= year <= 9999 && 1 <= month <= 12 && 1 <= day <= DaysInMonth(year, month) ==> Valid(r)
  {
    DateTime(year, month, day, 0, 0, 0, 0)
  }

  /** The resolved start: the parsed argument when one was given, otherwise
      the day a week before now, at midnight. `weekAgo` is the clock reading
      minus seven days. */
  function ResolveStart(arg: Option<DateTime>, weekAgo: DateTime): (r: DateTime)
    ensures arg.Some? ==> r == arg.value
    ensures arg.None? ==> SameDate(r, weekAgo) && MicrosOfDay(r) == 0
    ensures arg.None? ==> r.hour == 0 && r.minute == 0 && r.second == 0 && r.microsecond == 0
    ensures arg.None? && Valid(weekAgo) ==> Valid(r) && MicrosOfDay(r) <= MicrosOfDay(weekAgo)
  {
    match arg
    case Some(d) => d
    case None => Midnight(weekAgo)
  }

  /** The resolved end: the parsed argument or the clock reading, padded to
      23:59:59 of its day unless times were asked for. */
  function ResolveEnd(arg: Option<DateTime>, now: DateTime, includeTime: bool): (r: DateTime)
    ensures includeTime ==> r == arg.GetOr(now)
    ensures !includeTime ==>
      && SameDate(r, arg.GetOr(now))
      && r.microsecond == arg.GetOr(now).microsecond
      && r.hour == 23 && r.minute == 59 && r.second == 59
    ensures Valid(arg.GetOr(now)) ==> Valid(r) && MicrosOfDay(arg.GetOr(now)) <= MicrosOfDay(r)
  {
    var e := arg.GetOr(now);
    if includeTime then e else PadEndOfDay(e)
  }

  /** Date-only bounds cover whole days: the start at 00:00:00.000000 and the
      end at 23:59:59.000000 of the given days. */
  lemma DateOnlyWindowCoversWholeDays(
    y0: int, m0: int, d0: int, y1: int, m1: int, d1: int, weekAgo: DateTime, now: DateTime)
    ensures var s := ResolveStart(Some(FromDate(y0, m0, d0)), weekAgo);
      s == DateTime(y0, m0, d0, 0, 0, 0, 0)
    ensures var e := ResolveEnd(Some(FromDate(y1, m1, d1)), now, false);
      e == DateTime(y1, m1, d1, 23, 59, 59, 0) && MicrosOfDay(e) == EndOfDaySecond
  {
  }

  /** Without a given end and without times, the end keeps the clock's
      microsecond: it lies strictly after 23:59:59 whenever the clock had a
      sub-second part. */
  lemma DefaultEndKeepsClockMicrosecond(now: DateTime)
    requires Valid(now) && now.microsecond > 0
    ensures MicrosOfDay(ResolveEnd(None, now, false)) > EndOfDaySecond
    ensures ResolveEnd(None, now, false) != DateTime(now.year, now.month, now.day, 23, 59, 59, 0)
  {
  }
}

=== FILE: extensions.dfy ===
/** Extension handling of the finder: normalising the caller's extensions
    (files_finder_by_date.py:106-109), taking a file's own extension the way
    `os.path.splitext` does on POSIX (files_finder_by_date.py:125), and the
    extension filter test (files_finder_by_date.py:129). */
module Extensions {
  import opened Common
  import opened Text

  predicate StartsWithDot(s: string) {
    |s| > 0 && s[0] == '.'
  }

  /** One caller-supplied extension, lower-cased and with a leading dot added
      when it has none: "TXT", ".txt" and ".TXT" all become ".txt". */
  function Normalize(ext: string): (r: string)
    ensures StartsWithDot(r) && IsLower(r)
    ensures |r| == (if StartsWithDot(ext) then |ext| else |ext| + 1)
    ensures r[|r| - |ext|..] == Lower(ext)
  {
    (if StartsWithDot(ext) then "" else ".") + Lower(ext)
  }

  /** Normalising a normalised extension changes nothing. */
  lemma NormalizeIdempotent(ext: string)
    ensures Normalize(Normalize(ext)) == Normalize(ext)
  {
    LowerOfLower(Normalize(ext));
  }

  /** The normalised extensions are exactly the dot-prefixed lower-case strings. */
  lemma NormalizeFixpoint(ext: string)
    ensures Normalize(ext) == ext <==> StartsWithDot(ext) && IsLower(ext)
  {
    if StartsWithDot(ext) && IsLower(ext) {
      LowerOfLower(ext);
    }
  }

  /** Case and a leading dot make no difference. */
  lemma NormalizeSpellings()
    ensures Normalize("TXT") == ".txt"
    ensures Normalize(".txt") == ".txt"
    ensures Normalize(".TXT") == ".txt"
    ensures Normalize("md") == ".md"
    ensures Normalize(".MD") == ".md"
  {
    assert Lower("TXT") == "txt";
    assert Lower(".txt") == ".txt";
    assert Lower(".TXT") == ".txt";
    assert Lower("md") == "md";
    assert Lower(".MD") == ".md";
  }

  /** The extension filter kept by the finder: `None` when the caller gave no
      extensions (the attribute is then never assigned), otherwise the set of
      normalised extensions. */
  function BuildFilter(exts: seq<string>): (f: Option<set<string>>)
    ensures f.None? <==> |exts| == 0
    ensures f.Some? ==> forall e :: e in exts ==> Normalize(e) in f.value
    ensures f.Some? ==> forall x :: x in f.value ==> exists e :: e in exts && Normalize(e) == x
    ensures f.Some? ==> forall x :: x in f.value ==> StartsWithDot(x) && IsLower(x)
    ensures f.Some? ==> f.value != {}
  {
    if |exts| == 0 then None
    else
      var s := set e | e in exts :: Normalize(e);
      assert Normalize(exts[0]) in s;
      Some(s)
  }

  /** Some character of `p` in `[lo, hi)` is not a dot. */
  predicate NonDotBetween(p: string, lo: int, hi: int) {
    exists k :: lo <= k < hi && 0 <= k < |p| && p[k] != '.'
  }

  /** The final path component: everything after the last `/`. */
  function Basename(p: string): (b: string)
    ensures '/' !in b
    ensures |b| <= |p| && b == p[|p| - |b|..]
  {
    p[LastIndexOf(p, '/') + 1..]
  }

  /** Some `.` in the component has a character other than `.` before it. */
  predicate HasInnerDot(b: string) {
    exists j, i :: 0 <= j < i < |b| && b[j] != '.' && b[i] == '.'
  }

  /** Where the extension of `p` starts: the last `.` of the final
      component when something other than dots comes before it there,
      otherwise -1. */
  function ExtStart(p: string): (d: int)
    ensures d == -1 || (LastIndexOf(p, '/') < d && d == LastIndexOf(p, '.'))
  {
    var sep := LastIndexOf(p, '/');
    var dot := LastIndexOf(p, '.');
    if dot > sep && NonDotBetween(p, sep + 1, dot) then dot else -1
  }

  /** `os.path.splitext` on POSIX: the extension runs from the last `.` of the
      final component to the end, unless that component has no `.` or only
      leading ones, in which case the extension is empty. */
  function SplitExt(p: string): (r: (string, string))
    ensures r.0 + r.1 == p
    ensures r.1 != "" ==> r.1[0] == '.'
    ensures forall k :: 0 < k < |r.1| ==> r.1[k] != '.'
    ensures '/' !in r.1
  {
    var d := ExtStart(p);
    if d >= 0 then (p[..d], p[d..]) else (p, "")
  }

  /** A file has an extension exactly when its final component has a `.`
      preceded by something other than dots. */
  lemma SplitExtNonEmptyIff(p: string)
    ensures SplitExt(p).1 != "" <==> HasInnerDot(Basename(p))
  {
    if SplitExt(p).1 != "" {
      ExtensionGivesInnerDot(p);
    }
    if HasInnerDot(Basename(p)) {
      InnerDotGivesExtension(p);
    }
  }

  lemma ExtensionGivesInnerDot(p: string)
    requires ExtStart(p) >= 0
    ensures HasInnerDot(Basename(p))
  {
    var sep := LastIndexOf(p, '/');
    var dot := LastIndexOf(p, '.');
    assert dot > sep && NonDotBetween(p, sep + 1, dot);
    var k :| sep + 1 <= k < dot && 0 <= k < |p| && p[k] != '.';
    InnerDotWitness(p, sep, k, dot);
  }

  /** A non-dot at `k` and a dot at `dot` after it, both past the last `/`,
      give the final component an inner dot. */
  lemma InnerDotWitness(p: string, sep: int, k: int, dot: int)
    requires sep == LastIndexOf(p, '/')
    requires sep < k < dot < |p|
    requires p[k] != '.' && p[dot] == '.'
    ensures HasInnerDot(Basename(p))
  {
    var b := Basename(p);
    assert b == p[sep + 1..];
    assert 0 <= k - sep - 1 < dot - sep - 1 < |b|;
    assert b[k - sep - 1] == p[k];
    assert b[dot - sep - 1] == p[dot];
  }

  lemma InnerDotGivesExtension(p: string)
    requires HasInnerDot(Basename(p))
    ensures ExtStart(p) >= 0
  {
    var sep := LastIndexOf(p, '/');
    var dot := LastIndexOf(p, '.');
    var b := Basename(p);
    assert b == p[sep + 1..];
    var j, i :| 0 <= j < i < |b| && b[j] != '.' && b[i] == '.';
    assert p[sep + 1 + i] == b[i];
    assert p[sep + 1 + j] == b[j];
    assert NonDotBetween(p, sep + 1, dot);
  }

  /** The same split, computed the way CPython's `_splitext` does it: scan the
      final component from its start towards the last dot and stop at the
      first character that is not a dot. */
  method SplitExtScan(p: string) returns (root: string, ext: string)
    ensures (root, ext) == SplitExt(p)
  {
    var sepIndex := LastIndexOf(p, '/');
    var dotIndex := LastIndexOf(p, '.');
    if dotIndex > sepIndex {
      var i := sepIndex + 1;
      while i < dotIndex
        invariant sepIndex + 1 <= i <= dotIndex
        invariant !NonDotBetween(p, sepIndex + 1, i)
      {
        if p[i] != '.' {
          assert NonDotBetween(p, sepIndex + 1, dotIndex);
          return p[..dotIndex], p[dotIndex..];
        }
        i := i + 1;
      }
    }
    return p, "";
  }

  /** The lower-cased extension the finder compares against the filter. */
  function FileExt(path: string): (r: string)
    ensures IsLower(r)
    ensures r == "" || StartsWithDot(r)
    ensures forall k :: 0 < k < |r| ==> r[k] != '.'
    ensures |r| <= |path|
  {
    Lower(SplitExt(path).1)
  }

  /** The filter test: with no filter (or an empty one) every extension
      passes; otherwise only members of the set pass. */
  predicate AdmitsExt(filter: Option<set<string>>, ext: string): (r: bool)
    ensures filter.None? ==> r
    ensures filter.Some? && filter.value != {} ==> (r <==> ext in filter.value)
    ensures filter.Some? && filter.value == {} ==> r
  {
    match filter
    case None => true
    case Some(s) => s == {} || ext in s
  }

  /** A caller extension with a second dot (".tar.gz") can never equal a
      file's extension, so a filter made only of such extensions admits no
      file at all. */
  lemma MultiDotNeverMatches(e: string, path: string)
    requires exists k :: 0 < k < |Normalize(e)| && Normalize(e)[k] == '.'
    ensures FileExt(path) != Normalize(e)
  {
  }

  /** A file passes a filter built from the caller's extensions exactly when
      its lower-cased extension is the normalised form of one of them. */
  lemma AdmitsBuiltFilterIff(exts: seq<string>, path: string)
    requires |exts| > 0
    ensures AdmitsExt(BuildFilter(exts), FileExt(path))
        <==> exists e :: e in exts && Normalize(e) == FileExt(path)
  {
  }

  /** `rfind` pinned down: an index holding `c` with no `c` after it is the
      last one. */
  lemma LastIndexOfAt(s: string, c: char, i: int)
    requires -1 <= i < |s|
    requires i >= 0 ==> s[i] == c
    requires forall k :: i < k < |s| ==> s[k] != c
    ensures LastIndexOf(s, c) == i
  {
  }

  /** When the last `/` of `p` is at `sep`, its last `.` at `dot` after it,
      and something other than a dot lies between them, the file's extension
      is the lower-cased text from `dot` on. */
  lemma FileExtAt(p: string, sep: int, dot: int)
    requires -1 <= sep < dot < |p|
    requires sep >= 0 ==> p[sep] == '/'
    requires p[dot] == '.'
    requires forall k :: sep < k < |p| ==> p[k] != '/'
    requires forall k :: dot < k < |p| ==> p[k] != '.'
    requires NonDotBetween(p, sep + 1, dot)
    ensures FileExt(p) == Lower(p[dot..])
  {
    LastIndexOfAt(p, '/', sep);
    LastIndexOfAt(p, '.', dot);
  }

  /** A filter built from one extension holds exactly its normalised form. */
  lemma BuildFilterSingle(e: string)
    ensures BuildFilter([e]) == Some({Normalize(e)})
  {
    var f := BuildFilter([e]);
    forall x | x in f.value
      ensures x == Normalize(e)
    {
      var e' :| e' in [e] && Normalize(e') == x;
    }
    assert e in [e];
    assert Normalize(e) in f.value;
    assert f.value == {Normalize(e)};
  }

  /** With the filter {".md"}, the extension ".md" passes and ".txt" does
      not. Which paths have which extension is `FileExtAt`'s business. */
  lemma MarkdownFilterExample()
    ensures AdmitsExt(BuildFilter(["md"]), ".md")
    ensures !AdmitsExt(BuildFilter(["md"]), ".txt")
  {
    NormalizeSpellings();
    BuildFilterSingle("md");
    assert BuildFilter(["md"]) == Some({".md"});
  }

  /** Spelling the filter ".MD" or "md" builds the same filter. */
  lemma MarkdownFilterSpellings()
    ensures BuildFilter([".MD"]) == BuildFilter(["md"])
  {
    NormalizeSpellings();
    BuildFilterSingle("md");
    BuildFilterSingle(".MD");
  }
}

=== FILE: report.dfy ===
/** The finder as a whole (files_finder_by_date.py:83-109 and 167-213):
    the constructor's resolved configuration, the run header, the framing
    that appends a run to an existing report, and one `find_files` run over
    the three report files. Report files are modelled by their contents:
    `None` for a file that does not exist yet. */
module Report {
  import opened Common
  import opened Text
  import opened Extensions
  import opened Dates
  import opened Walker
  import opened Sorter

  /** The column legend closing the table-style header. */
  const Legend: string := "     file     |     modified     |     created     |     accessed\n"

  /** The header lines before the legend, without the newline ending the last. */
  function HeaderLines(startedAt: string, startText: string, endText: string): string {
    "script started at: " + startedAt + "\nstart date: " + startText + "\nend date: " + endText
  }

  /** `starting_text`: the run header of the table-style reports. */
  function Header(startedAt: string, startText: string, endText: string): (h: string)
    ensures |h| == |HeaderLines(startedAt, startText, endText)| + 67
    ensures h[..|h| - 67] == HeaderLines(startedAt, startText, endText)
    ensures h[|h| - 67..] == "\n" + Legend
  {
    HeaderLines(startedAt, startText, endText) + "\n" + Legend
  }

  /** Python's `text[:-n]`: all but the last `n` characters, or nothing when
      the text is shorter. A slice end of `-0` is `0`, so `text[:-0]` is
      empty too. */
  function DropLast(text: string, n: nat): (r: string)
    ensures n > 0 ==> |r| == if |text| >= n then |text| - n else 0
    ensures n == 0 ==> r == ""
    ensures r <= text
  {
    if n > 0 && |text| >= n then text[..|text| - n] else ""
  }

  /** `starting_text[:-67] + '\n\n'`: the header of the list report. */
  function ListHeader(header: string): (r: string)
    ensures |header| >= 67 ==> r == header[..|header| - 67] + "\n\n"
    ensures |header| < 67 ==> r == "\n\n"
  {
    DropLast(header, 67) + "\n\n"
  }

  /** Dropping 67 characters removes exactly the legend and the newline
      before it: the list header is the run's three header lines followed
      by a blank line. */
  lemma ListHeaderDropsLegend(startedAt: string, startText: string, endText: string)
    ensures ListHeader(Header(startedAt, startText, endText))
      == "script started at: " + startedAt + "\nstart date: " + startText + "\nend date: " + endText + "\n\n"
  {
  }

  /** Opening a report for a run: a missing file becomes the header; an
      existing one keeps its content and gets three newlines and the header
      after it. */
  function Frame(existing: Option<string>, header: string): (r: string)
    ensures existing.None? ==> r == header
    ensures existing.Some? ==> existing.value <= r && r[|existing.value|..] == "\n\n\n" + header
  {
    match existing
    case None => header
    case Some(content) => content + "\n\n\n" + header
  }

  /** The finder's state after its constructor. */
  datatype Finder = Finder(start: DateTime, end: DateTime, filter: Option<set<string>>, sortInfo: bool)

  /** `__init__`: resolves both bounds and normalises the extensions.
      `now` and `weekAgo` are the clock reading and that reading minus seven
      days; the arguments are already parsed (`None` for a missing or empty
      string). */
  function Init(
    startArg: Option<DateTime>, endArg: Option<DateTime>, includeTime: bool,
    extensions: seq<string>, sortInfo: bool, now: DateTime, weekAgo: DateTime): (f: Finder)
    ensures startArg.Some? ==> f.start == startArg.value
    ensures startArg.None? ==> SameDate(f.start, weekAgo) && MicrosOfDay(f.start) == 0
    ensures startArg.None? ==> f.start.hour == 0 && f.start.minute == 0 && f.start.second == 0 && f.start.microsecond == 0
    ensures startArg.None? && Valid(weekAgo) ==> Valid(f.start)
    ensures includeTime ==> f.end == endArg.GetOr(now)
    ensures !includeTime ==> SameDate(f.end, endArg.GetOr(now)) && MicrosOfDay(f.end) == EndOfDaySecond + endArg.GetOr(now).microsecond
    ensures !includeTime ==>
      f.end.hour == 23 && f.end.minute == 59 && f.end.second == 59 && f.end.microsecond == endArg.GetOr(now).microsecond
    ensures Valid(endArg.GetOr(now)) ==> Valid(f.end)
    ensures f.filter.None? <==> |extensions| == 0
    ensures f.filter.Some? ==> forall e :: e in extensions ==> Normalize(e) in f.filter.value
    ensures f.filter.Some? ==> forall x :: x in f.filter.value ==> exists e :: e in extensions && Normalize(e) == x
    ensures f.sortInfo == sortInfo
  {
    Finder(ResolveStart(startArg, weekAgo), ResolveEnd(endArg, now, includeTime), BuildFilter(extensions), sortInfo)
  }

  /** The contents of the three report files (`None`: the file does not exist). */
  datatype Reports = Reports(table: Option<string>, listSorted: Option<string>, tableSorted: Option<string>)

  datatype RunResult = RunResult(count: nat, reports: Reports)

  /** What `find_files` needs from outside: `stamp` is `datetime.timestamp`,
      `show` is `str` on a datetime, `fmt` is `time.ctime`, and `startedAt`
      the printed clock reading. */
  datatype Env = Env(stamp: DateTime -> int, show: DateTime -> string, fmt: int -> string, startedAt: string)

  function RunConfig(f: Finder, env: Env): WalkConfig {
    WalkConfig(Window(env.stamp(f.start), env.stamp(f.end)), f.filter, f.sortInfo)
  }

  function RunHeader(f: Finder, env: Env): string {
    Header(env.startedAt, env.show(f.start), env.show(f.end))
  }

  /** `find_files`: frame the table report, walk, and when sorting is on
      frame both sorted reports and append the sort pass's blocks. The walk
      is the documented one (`Walker.Walk`), where no filter matches every
      file. As written, a run without extensions writes the table header
      and then raises `AttributeError` at the first existing file; that
      walk is `Walker.WalkAsWritten`. */
  function FindFiles(f: Finder, env: Env, before: Reports, es: seq<Entry>): (r: RunResult)
    ensures r.count == |Selected(RunConfig(f, env), es)|
    ensures r.reports.table.Some?
    ensures r.reports.table.value
      == Frame(before.table, RunHeader(f, env)) + Terminated(Lines(env.fmt, Selected(RunConfig(f, env), es)), "\n")
    ensures !f.sortInfo ==> r.reports.listSorted == before.listSorted && r.reports.tableSorted == before.tableSorted
    ensures f.sortInfo ==> r.reports.listSorted.Some? && r.reports.tableSorted.Some?
  {
    var header := RunHeader(f, env);
    var table := Frame(before.table, header);
    var walked := Walk(RunConfig(f, env), env.fmt, es);
    if !f.sortInfo then
      RunResult(walked.count, Reports(Some(table + walked.appended), before.listSorted, before.tableSorted))
    else
      var out := SortPass(env.fmt, walked.list.value);
      RunResult(walked.count, Reports(
        Some(table + walked.appended),
        Some(Frame(before.listSorted, ListHeader(header)) + out.listBlock),
        Some(Frame(before.tableSorted, header) + out.tableBlock)))
  }

  /** `a` is unchanged content of `b`: a missing file may become anything,
      an existing one only grows at its end. */
  predicate Extends(a: Option<string>, b: Option<string>) {
    a.Some? ==> b.Some? && a.value <= b.value
  }

  /** A run never overwrites: every report that existed keeps its content as
      a prefix of its new content. */
  lemma RunOnlyAppends(f: Finder, env: Env, before: Reports, es: seq<Entry>)
    ensures var after := FindFiles(f, env, before, es).reports;
      Extends(before.table, after.table) && Extends(before.listSorted, after.listSorted)
      && Extends(before.tableSorted, after.tableSorted)
  {
  }

  /** With sorting on, the sorted reports get the sort pass over exactly the
      records the primary table lists: the same records, in key order. */
  lemma SortedReportsHoldTheWalkedRecords(f: Finder, env: Env, before: Reports, es: seq<Entry>)
    requires f.sortInfo
    ensures var cfg := RunConfig(f, env);
      var found := Records(Selected(cfg, es));
      var out := SortPass(env.fmt, found);
      var after := FindFiles(f, env, before, es).reports;
      && multiset(out.sorted) == multiset(found)
      && Sorted(out.sorted)
      && after.listSorted == Some(Frame(before.listSorted, ListHeader(RunHeader(f, env))) + out.listBlock)
      && after.tableSorted == Some(Frame(before.tableSorted, RunHeader(f, env)) + out.tableBlock)
  {
  }

  /** A first run with nothing to find still creates the table report, and
      it holds exactly the header. */
  lemma EmptyRunWritesHeaderOnly(f: Finder, env: Env, es: seq<Entry>)
    requires forall i :: 0 <= i < |es| ==> !Found(RunConfig(f, env), es[i])
    ensures var r := FindFiles(f, env, Reports(None, None, None), es);
      r.count == 0 && r.reports.table == Some(RunHeader(f, env))
  {
    NothingSelected(RunConfig(f, env), es);
    assert Lines(env.fmt, []) == [];
    assert RunHeader(f, env) + "" == RunHeader(f, env);
  }

  lemma {:induction false} NothingSelected(cfg: WalkConfig, es: seq<Entry>)
    requires forall i :: 0 <= i < |es| ==> !Found(cfg, es[i])
    ensures Selected(cfg, es) == []
    decreases |es|
  {
    if |es| > 0 {
      NothingSelected(cfg, es[1..]);
    }
  }

  /** Running twice over the same directory: the second run leaves the first
      run's table untouched and appends the separator, a fresh header and the
      same match lines again. */
  lemma RerunAppendsAgain(f: Finder, env: Env, env2: Env, before: Reports, es: seq<Entry>)
    requires env2.stamp == env.stamp && env2.fmt == env.fmt
    ensures var first := FindFiles(f, env, before, es);
      var second := FindFiles(f, env2, first.reports, es);
      && second.count == first.count
      && second.reports.table.value
        == first.reports.table.value + "\n\n\n" + RunHeader(f, env2)
          + Terminated(Lines(env.fmt, Selected(RunConfig(f, env), es)), "\n")
  {
  }
}

=== FILE: sorter.dfy ===
/** The sort pass (files_finder_by_date.py:144-165): order the kept records
    by (creation time, modification time, access time, path), render each
    one twice, and join each rendering into one block of text. */
module Sorter {
  import opened Text
  import opened Walker

  /** `a` is a proper prefix of `b`. */
  predicate ProperPrefix(a: string, b: string) {
    |a| < |b| && forall j :: 0 <= j < |a| ==> a[j] == b[j]
  }

  /** `a` and `b` agree before position `k`, where `a` has the smaller code point. */
  predicate FirstDifferenceLess(a: string, b: string, k: int) {
    && 0 <= k < |a| && k < |b| && a[k] < b[k]
    && forall j :: 0 <= j < k ==> a[j] == b[j]
  }

  /** Python's `<` on `str`: code points compared left to right, and a
      proper prefix sorts first. */
  predicate StrLess(a: string, b: string): (r: bool)
    ensures r <==> ProperPrefix(a, b) || exists k :: FirstDifferenceLess(a, b, k)
    decreases |a|
  {
    if |a| == 0 then |b| > 0
    else if |b| == 0 then false
    else if a[0] != b[0] then
      assert a[0] < b[0] ==> FirstDifferenceLess(a, b, 0);
      a[0] < b[0]
    else
      StrLessShift(a, b);
      StrLess(a[1..], b[1..])
  }

  /** Dropping an equal first character keeps both the prefix relation and
      the first difference. */
  lemma StrLessShift(a: string, b: string)
    requires |a| > 0 && |b| > 0 && a[0] == b[0]
    ensures ProperPrefix(a, b) <==> ProperPrefix(a[1..], b[1..])
    ensures (exists k :: FirstDifferenceLess(a, b, k)) <==> (exists k :: FirstDifferenceLess(a[1..], b[1..], k))
  {
    if ProperPrefix(a[1..], b[1..]) {
      assert forall j :: 1 <= j < |a| ==> a[j] == a[1..][j - 1] && b[j] == b[1..][j - 1];
    }
    if k :| FirstDifferenceLess(a, b, k) {
      assert k > 0;
      assert FirstDifferenceLess(a[1..], b[1..], k - 1);
    }
    if k :| FirstDifferenceLess(a[1..], b[1..], k) {
      assert forall j :: 1 <= j < k + 1 ==> a[j] == a[1..][j - 1] && b[j] == b[1..][j - 1];
      assert FirstDifferenceLess(a, b, k + 1);
    }
  }

  lemma {:induction false} StrLessIrreflexive(a: string)
    ensures !StrLess(a, a)
    decreases |a|
  {
    if |a| > 0 {
      StrLessIrreflexive(a[1..]);
    }
  }

  lemma {:induction false} StrLessTransitive(a: string, b: string, c: string)
    requires StrLess(a, b) && StrLess(b, c)
    ensures StrLess(a, c)
    decreases |a|
  {
    if |a| > 0 && |b| > 0 && |c| > 0 && a[0] == b[0] && b[0] == c[0] {
      StrLessTransitive(a[1..], b[1..], c[1..]);
    }
  }

  /** Two different strings are always ordered one way or the other. */
  lemma {:induction false} StrLessTotal(a: string, b: string)
    requires a != b
    ensures StrLess(a, b) || StrLess(b, a)
    decreases |a|
  {
    if |a| > 0 && |b| > 0 && a[0] == b[0] {
      assert a == [a[0]] + a[1..] && b == [b[0]] + b[1..];
      StrLessTotal(a[1..], b[1..]);
    }
  }

  lemma {:induction false} StrLessAsymmetric(a: string, b: string)
    requires StrLess(a, b)
    ensures !StrLess(b, a)
    decreases |a|
  {
    if |a| > 0 && |b| > 0 && a[0] == b[0] {
      StrLessAsymmetric(a[1..], b[1..]);
    }
  }

  /** The order `itemgetter(2, 1, 3, 0)` gives the tuples: creation time,
      then modification time, then access time, then path. */
  predicate KeyLess(x: Record, y: Record): (r: bool)
    ensures x.ctime < y.ctime ==> r
    ensures r ==> x.ctime <= y.ctime
    ensures x.ctime == y.ctime && x.mtime < y.mtime ==> r
    ensures r ==> x != y
  {
    StrLessIrreflexive(x.path);
    || x.ctime < y.ctime
    || (x.ctime == y.ctime && x.mtime < y.mtime)
    || (x.ctime == y.ctime && x.mtime == y.mtime && x.atime < y.atime)
    || (x.ctime == y.ctime && x.mtime == y.mtime && x.atime == y.atime && StrLess(x.path, y.path))
  }

  /** The key covers every field, so records with equal keys are equal and
      "not after" is "before or the same record". */
  predicate KeyLe(x: Record, y: Record) {
    x == y || KeyLess(x, y)
  }

  /** Any two records are ordered one way or the other. */
  lemma KeyLeTotal(x: Record, y: Record)
    ensures KeyLe(x, y) || KeyLe(y, x)
  {
    if x.path != y.path {
      StrLessTotal(x.path, y.path);
    }
  }

  /** Records ordered both ways are the same record. */
  lemma KeyLeAntisymmetric(x: Record, y: Record)
    requires KeyLe(x, y) && KeyLe(y, x)
    ensures x == y
  {
    if x != y && x.path == y.path {
      StrLessIrreflexive(x.path);
    } else if x != y {
      StrLessAsymmetric(x.path, y.path);
    }
  }

  lemma KeyLeTransitive(x: Record, y: Record, z: Record)
    requires KeyLe(x, y) && KeyLe(y, z)
    ensures KeyLe(x, z)
  {
    if x != y && y != z && x.ctime == z.ctime && x.mtime == z.mtime && x.atime == z.atime {
      StrLessTransitive(x.path, y.path, z.path);
    }
  }

  predicate Sorted(s: seq<Record>) {
    forall i, j :: 0 <= i < j < |s| ==> KeyLe(s[i], s[j])
  }

  /** Puts `x` into a sorted sequence at its place. */
  function Insert(x: Record, s: seq<Record>): (r: seq<Record>)
    requires Sorted(s)
    ensures Sorted(r)
    ensures multiset(r) == multiset(s) + multiset{x}
  {
    if |s| == 0 then [x]
    else if KeyLe(x, s[0]) then
      InsertFront(x, s);
      [x] + s
    else
      var rest := Insert(x, s[1..]);
      InsertBehind(x, s, rest);
      [s[0]] + rest
  }

  lemma InsertFront(x: Record, s: seq<Record>)
    requires Sorted(s) && |s| > 0 && KeyLe(x, s[0])
    ensures Sorted([x] + s)
  {
    forall j | 0 <= j < |s|
      ensures KeyLe(x, s[j])
    {
      KeyLeTransitive(x, s[0], s[j]);
    }
  }

  lemma InsertBehind(x: Record, s: seq<Record>, rest: seq<Record>)
    requires Sorted(s) && |s| > 0 && !KeyLe(x, s[0])
    requires Sorted(rest) && multiset(rest) == multiset(s[1..]) + multiset{x}
    ensures Sorted([s[0]] + rest)
    ensures multiset([s[0]] + rest) == multiset(s) + multiset{x}
  {
    KeyLeTotal(x, s[0]);
    forall j | 0 <= j < |rest|
      ensures KeyLe(s[0], rest[j])
    {
      assert rest[j] in multiset(rest);
      if rest[j] != x {
        HeadBelowTail(s, rest[j]);
      }
    }
    SortedCons(s[0], rest);
    assert s == [s[0]] + s[1..];
  }

  /** In a sorted sequence the head is not after anything in the tail. */
  lemma HeadBelowTail(s: seq<Record>, y: Record)
    requires Sorted(s) && |s| > 0 && y in multiset(s[1..])
    ensures KeyLe(s[0], y)
  {
    var k :| 0 <= k < |s[1..]| && s[1..][k] == y;
    assert s[k + 1] == y;
  }

  /** A record not after anything in a sorted sequence can go in front of it. */
  lemma SortedCons(h: Record, rest: seq<Record>)
    requires Sorted(rest)
    requires forall j :: 0 <= j < |rest| ==> KeyLe(h, rest[j])
    ensures Sorted([h] + rest)
  {
    var t := [h] + rest;
    forall i, j | 0 <= i < j < |t|
      ensures KeyLe(t[i], t[j])
    {
      if i == 0 {
        assert t[j] == rest[j - 1];
      } else {
        assert t[i] == rest[i - 1] && t[j] == rest[j - 1];
      }
    }
  }

  /** Insertion sort: a sorted permutation of its input. */
  function Sort(s: seq<Record>): (r: seq<Record>)
    ensures Sorted(r)
    ensures multiset(r) == multiset(s)
  {
    if |s| == 0 then []
    else
      assert s == [s[0]] + s[1..];
      Insert(s[0], Sort(s[1..]))
  }

  /** There is only one sorted permutation: whatever algorithm orders the
      records (Python's `list.sort` included), the result is `Sort`'s. */
  lemma {:induction false} SortedPermutationUnique(a: seq<Record>, b: seq<Record>)
    requires Sorted(a) && Sorted(b) && multiset(a) == multiset(b)
    ensures a == b
    decreases |a|
  {
    assert |a| == |multiset(a)| == |multiset(b)| == |b|;
    if |a| > 0 {
      SameHead(a, b);
      SortedTail(a);
      SortedTail(b);
      SortedPermutationUnique(a[1..], b[1..]);
      assert a == [a[0]] + a[1..] && b == [b[0]] + b[1..];
    }
  }

  /** Two sorted permutations of each other start with the same record and
      continue with permutations of each other. */
  lemma SameHead(a: seq<Record>, b: seq<Record>)
    requires Sorted(a) && Sorted(b) && multiset(a) == multiset(b) && |a| > 0 && |b| > 0
    ensures a[0] == b[0]
    ensures multiset(a[1..]) == multiset(b[1..])
  {
    assert a[0] in multiset(b) && b[0] in multiset(a);
    SortedHeadIsLeast(a, b[0]);
    SortedHeadIsLeast(b, a[0]);
    KeyLeAntisymmetric(a[0], b[0]);
    TailMultiset(a);
    TailMultiset(b);
  }

  lemma SortedTail(s: seq<Record>)
    requires Sorted(s) && |s| > 0
    ensures Sorted(s[1..])
  {
    forall i, j | 0 <= i < j < |s| - 1
      ensures KeyLe(s[1..][i], s[1..][j])
    {
      assert s[1..][i] == s[i + 1] && s[1..][j] == s[j + 1];
    }
  }

  /** The head of a sorted sequence is not after any of its elements. */
  lemma SortedHeadIsLeast(s: seq<Record>, y: Record)
    requires Sorted(s) && y in multiset(s)
    ensures KeyLe(s[0], y)
  {
    var i :| 0 <= i < |s| && s[i] == y;
  }

  lemma TailMultiset(s: seq<Record>)
    requires |s| > 0
    ensures multiset(s[1..]) == multiset(s) - multiset{s[0]}
  {
    assert s == [s[0]] + s[1..];
  }

  /** The multi-line form of a record for the sorted list report. */
  function ListEntry(fmt: int -> string, r: Record): (t: string)
    ensures |t| == 39 + |r.path| + |fmt(r.ctime)| + |fmt(r.mtime)| + |fmt(r.atime)|
  {
    "file: " + r.path + "\ncreated: " + fmt(r.ctime) + "\nmodified: " + fmt(r.mtime)
      + "\naccessed: " + fmt(r.atime) + "\n"
  }

  /** Where the fields of a list entry sit: the path after `file: `, the
      creation time on the next line after `created: `, the modification
      time after `modified: `, and the access time on the last line after
      `accessed: `, which ends the entry. */
  lemma ListEntryFields(fmt: int -> string, r: Record)
    ensures var t, p, c := ListEntry(fmt, r), |r.path|, |fmt(r.ctime)|;
      && t[..6] == "file: " && t[6..6 + p] == r.path
      && t[6 + p..16 + p] == "\ncreated: "
      && t[16 + p..16 + p + c] == fmt(r.ctime)
      && t[16 + p + c..27 + p + c] == "\nmodified: "
      && t[27 + p + c..27 + p + c + |fmt(r.mtime)|] == fmt(r.mtime)
      && t[27 + p + c + |fmt(r.mtime)|..] == "\naccessed: " + fmt(r.atime) + "\n"
  {
  }

  /** The one-line form of a record for the sorted table report. The labels
      are the source's: `mtime=` shows the creation time and `ctime=` the
      modification time. */
  function SortedTableEntry(fmt: int -> string, r: Record): (t: string)
    ensures |t| == 44 + |r.path| + |fmt(r.ctime)| + |fmt(r.mtime)| + |fmt(r.atime)|
  {
    "file=" + r.path + "   |   mtime=" + fmt(r.ctime) + "   |   ctime=" + fmt(r.mtime)
      + "   |   atime=" + fmt(r.atime)
  }

  /** Where the fields of a sorted-table entry sit: the path after `file=`,
      the creation time after the `mtime=` label, the modification time
      after the `ctime=` label, and the access time last, after its own
      label. */
  lemma SortedTableEntryFields(fmt: int -> string, r: Record)
    ensures var t, p, c := SortedTableEntry(fmt, r), |r.path|, |fmt(r.ctime)|;
      && t[..5] == "file=" && t[5..5 + p] == r.path
      && t[5 + p..18 + p] == "   |   mtime="
      && t[18 + p..18 + p + c] == fmt(r.ctime)
      && t[18 + p + c..31 + p + c] == "   |   ctime="
      && t[31 + p + c..31 + p + c + |fmt(r.mtime)|] == fmt(r.mtime)
      && t[31 + p + c + |fmt(r.mtime)|..] == "   |   atime=" + fmt(r.atime)
  {
  }

  function ListEntries(fmt: int -> string, s: seq<Record>): (es: seq<string>)
    ensures |es| == |s|
    ensures forall i :: 0 <= i < |s| ==> es[i] == ListEntry(fmt, s[i])
  {
    seq(|s|, i requires 0 <= i < |s| => ListEntry(fmt, s[i]))
  }

  function TableEntries(fmt: int -> string, s: seq<Record>): (es: seq<string>)
    ensures |es| == |s|
    ensures forall i :: 0 <= i < |s| ==> es[i] == SortedTableEntry(fmt, s[i])
  {
    seq(|s|, i requires 0 <= i < |s| => SortedTableEntry(fmt, s[i]))
  }

  /** What the sort pass produces: the records in order, the block appended
      to the list report and the block appended to the table report. */
  datatype SortOutput = SortOutput(sorted: seq<Record>, listBlock: string, tableBlock: string)

  /** `_sorter`: one list entry and one table entry per record, in key order;
      the list block is the entries joined by newlines plus a blank line, the
      table block the entries joined by newlines and nothing after. */
  function SortPass(fmt: int -> string, records: seq<Record>): (o: SortOutput)
    ensures Sorted(o.sorted) && multiset(o.sorted) == multiset(records)
    ensures |o.sorted| == |records|
    ensures o.listBlock == Join(ListEntries(fmt, o.sorted), "\n") + "\n\n"
    ensures o.tableBlock == Join(TableEntries(fmt, o.sorted), "\n")
  {
    var sorted := Sort(records);
    assert |sorted| == |multiset(sorted)| == |records|;
    SortOutput(sorted, Join(ListEntries(fmt, sorted), "\n") + "\n\n", Join(TableEntries(fmt, sorted), "\n"))
  }

  /** The blocks depend only on which records there are, not on the order
      the walk found them in: any sorted arrangement of the same records
      yields the same blocks. */
  lemma SortPassOrderIndependent(fmt: int -> string, records: seq<Record>, p: seq<Record>)
    requires multiset(p) == multiset(records)
    ensures SortPass(fmt, p) == SortPass(fmt, records)
  {
    SortedPermutationUnique(SortPass(fmt, p).sorted, SortPass(fmt, records).sorted);
  }

  /** Block shapes: every list entry is followed by a newline and the block
      ends in one more; the table block separates entries by one newline and
      adds none at the end, so a run without matches leaves "\n\n" in the
      list report and nothing in the table report. */
  lemma SortPassBlockShapes(fmt: int -> string, records: seq<Record>)
    ensures var o := SortPass(fmt, records);
      && (|records| > 0 ==> o.listBlock == Terminated(ListEntries(fmt, o.sorted), "\n") + "\n")
      && (|records| > 0 ==> o.tableBlock + "\n" == Terminated(TableEntries(fmt, o.sorted), "\n"))
      && (|records| == 0 ==> o.listBlock == "\n\n" && o.tableBlock == "")
  {
    var o := SortPass(fmt, records);
    if |records| > 0 {
      JoinThenSep(ListEntries(fmt, o.sorted), "\n");
      JoinThenSep(TableEntries(fmt, o.sorted), "\n");
    }
  }

  /** The field labelled `mtime=` holds the modification time in the primary
      table but the creation time in the sorted table, and the field
      labelled `ctime=` holds the creation time in the primary table but
      the modification time in the sorted table. */
  lemma SortedTableSwapsTimeLabels(fmt: int -> string, r: Record)
    ensures var p := "file=" + r.path + " | mtime=";
      TableLine(fmt, r)[|p|..|p| + |fmt(r.mtime)|] == fmt(r.mtime)
    ensures var p := "file=" + r.path + "   |   mtime=";
      SortedTableEntry(fmt, r)[|p|..|p| + |fmt(r.ctime)|] == fmt(r.ctime)
    ensures var p := "file=" + r.path + " | mtime=" + fmt(r.mtime) + " | ctime=";
      TableLine(fmt, r)[|p|..|p| + |fmt(r.ctime)|] == fmt(r.ctime)
    ensures var p := "file=" + r.path + "   |   mtime=" + fmt(r.ctime) + "   |   ctime=";
      SortedTableEntry(fmt, r)[|p|..|p| + |fmt(r.mtime)|] == fmt(r.mtime)
  {
    TableLineFields(fmt, r);
    SortedTableEntryFields(fmt, r);
  }
}

=== FILE: text.dfy ===
/** String helpers used by the finder: ASCII lower-casing, `rfind`, and the
    two ways the finder glues lines together (`"\n".join` and per-line
    terminators). */
module Text {

  predicate IsUpperChar(c: char) {
    'A' <= c <= 'Z'
  }

  /** `str.lower()` on one character, restricted to ASCII letters. */
  function LowerChar(c: char): (r: char)
    ensures !IsUpperChar(r)
    ensures r == c <==> !IsUpperChar(c)
    ensures IsUpperChar(c) ==> r as int - c as int == 32
  {
    if IsUpperChar(c) then (c as int + 32) as char else c
  }

  /** No ASCII upper-case letter anywhere in `s`. */
  predicate IsLower(s: string) {
    forall i :: 0 <= i < |s| ==> !IsUpperChar(s[i])
  }

  /** `str.lower()`: every character lower-cased, nothing else changed. */
  function Lower(s: string): (r: string)
    ensures |r| == |s|
    ensures forall i :: 0 <= i < |s| ==> r[i] == LowerChar(s[i])
    ensures IsLower(r)
  {
    seq(|s|, i requires 0 <= i < |s| => LowerChar(s[i]))
  }

  /** A string that is already lower-case is left as it is. */
  lemma LowerOfLower(s: string)
    requires IsLower(s)
    ensures Lower(s) == s
  {
  }

  /** Lower-casing twice is lower-casing once. */
  lemma LowerIdempotent(s: string)
    ensures Lower(Lower(s)) == Lower(s)
  {
    LowerOfLower(Lower(s));
  }

  /** A character in neither part is not in their concatenation. */
  lemma NoCharInAppend(a: string, b: string, c: char)
    requires c !in a && c !in b
    ensures c !in a + b
  {
    assert forall k :: 0 <= k < |a + b| ==> (a + b)[k] == if k < |a| then a[k] else b[k - |a|];
  }

  /** `str.rfind(c)`: the last index holding `c`, or -1 when there is none. */
  function LastIndexOf(s: string, c: char): (r: int)
    ensures -1 <= r < |s|
    ensures r >= 0 ==> s[r] == c
    ensures forall k :: r < k < |s| ==> s[k] != c
  {
    if |s| == 0 then -1
    else if s[|s| - 1] == c then |s| - 1
    else LastIndexOf(s[..|s| - 1], c)
  }

  /** The characters equal to `c` in `s`. */
  function CountChar(s: string, c: char): nat
  {
    if |s| == 0 then 0
    else CountChar(s[..|s| - 1], c) + (if s[|s| - 1] == c then 1 else 0)
  }

  lemma {:induction false} CountCharAppend(a: string, b: string, c: char)
    ensures CountChar(a + b, c) == CountChar(a, c) + CountChar(b, c)
    decreases |b|
  {
    if |b| == 0 {
      assert a + b == a;
    } else {
      assert (a + b)[..|a + b| - 1] == a + b[..|b| - 1];
      CountCharAppend(a, b[..|b| - 1], c);
    }
  }

  /** A string without `c` counts zero of it. */
  lemma {:induction false} CountCharAbsent(s: string, c: char)
    requires c !in s
    ensures CountChar(s, c) == 0
    decreases |s|
  {
    if |s| > 0 {
      assert c !in s[..|s| - 1];
      CountCharAbsent(s[..|s| - 1], c);
    }
  }

  /** Each string of `xs` followed by `sep`. */
  function Terminated(xs: seq<string>, sep: string): string
  {
    if |xs| == 0 then "" else Terminated(xs[..|xs| - 1], sep) + xs[|xs| - 1] + sep
  }

  /** Python's `sep.join(xs)`: the strings of `xs` with `sep` between
      neighbours and nowhere else. */
  function Join(xs: seq<string>, sep: string): string
  {
    if |xs| == 0 then ""
    else if |xs| == 1 then xs[0]
    else Join(xs[..|xs| - 1], sep) + sep + xs[|xs| - 1]
  }

  /** A join plus one more separator is every element followed by the separator:
      the only difference between the two is that the join leaves the final
      separator off. */
  lemma {:induction false} JoinThenSep(xs: seq<string>, sep: string)
    requires |xs| > 0
    ensures Join(xs, sep) + sep == Terminated(xs, sep)
    decreases |xs|
  {
    if |xs| == 1 {
      assert xs[..0] == [];
    } else {
      JoinThenSep(xs[..|xs| - 1], sep);
    }
  }

  /** Number of `c` in a terminated sequence: one per separator when the
      separator is `c` itself and no part contains `c`. */
  lemma {:induction false} CountCharTerminated(xs: seq<string>, c: char)
    requires forall i :: 0 <= i < |xs| ==> c !in xs[i]
    ensures CountChar(Terminated(xs, [c]), c) == |xs|
    decreases |xs|
  {
    if |xs| > 0 {
      var init := xs[..|xs| - 1];
      CountCharTerminated(init, c);
      CountCharAbsent(xs[|xs| - 1], c);
      CountCharAppend(Terminated(init, [c]) + xs[|xs| - 1], [c], c);
      CountCharAppend(Terminated(init, [c]), xs[|xs| - 1], c);
      assert CountChar([c], c) == 1 by {
        assert [c][..0] == [];
      }
    }
  }
}

=== FILE: walker.dfy ===
/** The directory walk of the finder (files_finder_by_date.py:111-142) as a
    fold over the entries `os.walk` produced, in the order it produced them.
    Each entry carries what the file system answered for it: whether the file
    still exists and its three timestamps. `fmt` stands for `time.ctime`. */
module Walker {
  import opened Common
  import opened Text
  import opened Extensions

  /** The window bounds as timestamps. */
  datatype Window = Window(start: int, end: int)

  /** One file name yielded by the walk, joined to its directory. */
  datatype Entry = Entry(path: string, present: bool, mtime: int, ctime: int, atime: int)

  /** The tuple `(file_path, mtime, ctime, atime)` kept for the sort pass. */
  datatype Record = Record(path: string, mtime: int, ctime: int, atime: int)

  /** What the walk reads from the finder: window, extension filter and
      whether records are kept for sorting. */
  datatype WalkConfig = WalkConfig(window: Window, filter: Option<set<string>>, sortInfo: bool)

  /** The walk's result: the match count, the text appended to the table
      report, and the kept records (`None` when sorting is off). */
  datatype Walked = Walked(count: nat, appended: string, list: Option<seq<Record>>)

  /** Both ends of the window are open. */
  predicate Inside(w: Window, t: int) {
    w.start < t < w.end
  }

  predicate InWindow(w: Window, e: Entry) {
    Inside(w, e.mtime) || Inside(w, e.ctime) || Inside(w, e.atime)
  }

  /** The per-file decision: the file still exists, its extension passes the
      filter, and one of its timestamps is inside the window. */
  predicate Found(cfg: WalkConfig, e: Entry) {
    e.present && AdmitsExt(cfg.filter, FileExt(e.path)) && InWindow(cfg.window, e)
  }

  function ToRecord(e: Entry): Record {
    Record(e.path, e.mtime, e.ctime, e.atime)
  }

  /** One line of the table report, without its terminating newline: the
      path after `file=`, then the three times in the order modification,
      creation, access, each after its own label. */
  function TableLine(fmt: int -> string, r: Record): (t: string)
    ensures |t| == 32 + |r.path| + |fmt(r.mtime)| + |fmt(r.ctime)| + |fmt(r.atime)|
  {
    "file=" + r.path + " | mtime=" + fmt(r.mtime) + " | ctime=" + fmt(r.ctime)
      + " | atime=" + fmt(r.atime)
  }

  /** Where the fields of a table line sit: the path right after `file=`,
      the modification time after ` | mtime=`, the creation time after
      ` | ctime=`, and the access time last, after ` | atime=`. */
  lemma TableLineFields(fmt: int -> string, r: Record)
    ensures var t, p, m := TableLine(fmt, r), |r.path|, |fmt(r.mtime)|;
      && t[..5] == "file=" && t[5..5 + p] == r.path
      && t[5 + p..14 + p] == " | mtime="
      && t[14 + p..14 + p + m] == fmt(r.mtime)
      && t[14 + p + m..23 + p + m] == " | ctime="
      && t[23 + p + m..23 + p + m + |fmt(r.ctime)|] == fmt(r.ctime)
      && t[23 + p + m + |fmt(r.ctime)|..] == " | atime=" + fmt(r.atime)
  {
  }

  /** Reference definition: the found entries, in discovery order. */
  function Selected(cfg: WalkConfig, es: seq<Entry>): (sel: seq<Entry>)
    ensures |sel| <= |es|
  {
    if |es| == 0 then []
    else (if Found(cfg, es[0]) then [es[0]] else []) + Selected(cfg, es[1..])
  }

  function Records(sel: seq<Entry>): (rs: seq<Record>)
    ensures |rs| == |sel|
  {
    seq(|sel|, i requires 0 <= i < |sel| => ToRecord(sel[i]))
  }

  function Lines(fmt: int -> string, sel: seq<Entry>): (ls: seq<string>)
    ensures |ls| == |sel|
  {
    seq(|sel|, i requires 0 <= i < |sel| => TableLine(fmt, ToRecord(sel[i])))
  }

  /** The loop state: files found so far, text appended so far, records kept so far. */
  datatype WalkState = WalkState(count: nat, appended: string, kept: seq<Record>)

  /** One iteration of the inner loop: the chain of `continue`s is the
      `Found` decision; a found entry adds one to the count, one line to the
      text and (when sorting) one record, and any other entry changes nothing. */
  function Step(cfg: WalkConfig, fmt: int -> string, acc: WalkState, e: Entry): (r: WalkState)
    ensures Found(cfg, e) ==> r == WalkState(
      acc.count + 1,
      acc.appended + TableLine(fmt, ToRecord(e)) + "\n",
      if cfg.sortInfo then acc.kept + [ToRecord(e)] else acc.kept)
    ensures !Found(cfg, e) ==> r == acc
  {
    if !e.present then acc
    else if !AdmitsExt(cfg.filter, FileExt(e.path)) then acc
    else if !InWindow(cfg.window, e) then acc
    else
      var r := ToRecord(e);
      WalkState(
        acc.count + 1,
        acc.appended + TableLine(fmt, r) + "\n",
        if cfg.sortInfo then acc.kept + [r] else acc.kept)
  }

  /** All iterations, in discovery order. The count never exceeds the
      number of entries, and the kept list has one record per match when
      sorting is on and none otherwise. */
  function Fold(cfg: WalkConfig, fmt: int -> string, es: seq<Entry>): (r: WalkState)
    ensures r.count <= |es|
    ensures |r.kept| == if cfg.sortInfo then r.count else 0
  {
    if |es| == 0 then WalkState(0, "", [])
    else Step(cfg, fmt, Fold(cfg, fmt, es[..|es| - 1]), es[|es| - 1])
  }

  /** Found entries distribute over concatenation: everything found in `a`
      comes before everything found in `b`. */
  lemma {:induction false} SelectedAppend(cfg: WalkConfig, a: seq<Entry>, b: seq<Entry>)
    ensures Selected(cfg, a + b) == Selected(cfg, a) + Selected(cfg, b)
    decreases |a|
  {
    if |a| == 0 {
      assert a + b == b;
    } else {
      assert (a + b)[1..] == a[1..] + b;
      SelectedAppend(cfg, a[1..], b);
    }
  }

  /** An entry is found exactly when it is in the walk and passes the decision. */
  lemma {:induction false} SelectedMembers(cfg: WalkConfig, es: seq<Entry>, x: Entry)
    ensures x in Selected(cfg, es) <==> x in es && Found(cfg, x)
    decreases |es|
  {
    if |es| > 0 {
      SelectedMembers(cfg, es[1..], x);
      assert es == [es[0]] + es[1..];
    }
  }

  lemma RecordsAppend(xs: seq<Entry>, ys: seq<Entry>)
    ensures Records(xs + ys) == Records(xs) + Records(ys)
  {
    assert forall i :: 0 <= i < |xs + ys| ==> Records(xs + ys)[i] == (Records(xs) + Records(ys))[i];
  }

  lemma LinesAppend(fmt: int -> string, xs: seq<Entry>, ys: seq<Entry>)
    ensures Lines(fmt, xs + ys) == Lines(fmt, xs) + Lines(fmt, ys)
  {
    assert forall i :: 0 <= i < |xs + ys| ==> Lines(fmt, xs + ys)[i] == (Lines(fmt, xs) + Lines(fmt, ys))[i];
  }

  /** The fold computes the reference: one count, one line and (when sorting)
      one record per found entry, in discovery order. */
  lemma {:induction false} FoldIsSelected(cfg: WalkConfig, fmt: int -> string, es: seq<Entry>)
    ensures Fold(cfg, fmt, es).count == |Selected(cfg, es)|
    ensures Fold(cfg, fmt, es).appended == Terminated(Lines(fmt, Selected(cfg, es)), "\n")
    ensures Fold(cfg, fmt, es).kept == if cfg.sortInfo then Records(Selected(cfg, es)) else []
    decreases |es|
  {
    if |es| > 0 {
      var init := es[..|es| - 1];
      var e := es[|es| - 1];
      assert es == init + [e];
      FoldIsSelected(cfg, fmt, init);
      StepKeepsSelected(cfg, fmt, Fold(cfg, fmt, init), init, e);
    }
  }

  /** One more iteration keeps the loop state equal to the reference's. */
  lemma StepKeepsSelected(cfg: WalkConfig, fmt: int -> string, acc: WalkState, init: seq<Entry>, e: Entry)
    requires acc.count == |Selected(cfg, init)|
    requires acc.appended == Terminated(Lines(fmt, Selected(cfg, init)), "\n")
    requires acc.kept == if cfg.sortInfo then Records(Selected(cfg, init)) else []
    ensures Step(cfg, fmt, acc, e).count == |Selected(cfg, init + [e])|
    ensures Step(cfg, fmt, acc, e).appended == Terminated(Lines(fmt, Selected(cfg, init + [e])), "\n")
    ensures Step(cfg, fmt, acc, e).kept == if cfg.sortInfo then Records(Selected(cfg, init + [e])) else []
  {
    SelectedSnoc(cfg, init, e);
    if Found(cfg, e) {
      FoundStepExtends(cfg, fmt, acc, Selected(cfg, init), e);
    } else {
      assert Selected(cfg, init + [e]) == Selected(cfg, init);
    }
  }

  /** A found entry extends the loop state by exactly its line and record. */
  lemma FoundStepExtends(cfg: WalkConfig, fmt: int -> string, acc: WalkState, s: seq<Entry>, e: Entry)
    requires Found(cfg, e)
    requires acc.count == |s|
    requires acc.appended == Terminated(Lines(fmt, s), "\n")
    requires acc.kept == if cfg.sortInfo then Records(s) else []
    ensures Step(cfg, fmt, acc, e).count == |s + [e]|
    ensures Step(cfg, fmt, acc, e).appended == Terminated(Lines(fmt, s + [e]), "\n")
    ensures Step(cfg, fmt, acc, e).kept == if cfg.sortInfo then Records(s + [e]) else []
  {
    LinesSnoc(fmt, s, e);
    RecordsAppend(s, [e]);
    assert Records([e]) == [ToRecord(e)];
  }

  lemma SelectedSnoc(cfg: WalkConfig, init: seq<Entry>, e: Entry)
    ensures Selected(cfg, init + [e]) == Selected(cfg, init) + (if Found(cfg, e) then [e] else [])
  {
    SelectedAppend(cfg, init, [e]);
    assert [e][1..] == [];
    assert Selected(cfg, init) + [] == Selected(cfg, init);
  }

  lemma LinesSnoc(fmt: int -> string, s: seq<Entry>, e: Entry)
    ensures Terminated(Lines(fmt, s + [e]), "\n") == Terminated(Lines(fmt, s), "\n") + TableLine(fmt, ToRecord(e)) + "\n"
  {
    LinesAppend(fmt, s, [e]);
    var ls := Lines(fmt, s + [e]);
    assert ls[..|ls| - 1] == Lines(fmt, s);
  }

  /** `_walker`: the count, the appended table text and the optional list. */
  function Walk(cfg: WalkConfig, fmt: int -> string, es: seq<Entry>): (r: Walked)
    ensures r.count == |Selected(cfg, es)|
    ensures r.appended == Terminated(Lines(fmt, Selected(cfg, es)), "\n")
    ensures cfg.sortInfo ==> r.list == Some(Records(Selected(cfg, es)))
    ensures !cfg.sortInfo ==> r.list == None
  {
    FoldIsSelected(cfg, fmt, es);
    var st := Fold(cfg, fmt, es);
    Walked(st.count, st.appended, if cfg.sortInfo then Some(st.kept) else None)
  }

  /** The same walk as the source writes it: a loop over the entries with a
      running count, an append per match and a list that grows only when
      sorting is on. */
  method WalkLoop(cfg: WalkConfig, fmt: int -> string, es: seq<Entry>) returns (r: Walked)
    ensures r == Walk(cfg, fmt, es)
    ensures cfg.sortInfo ==> r.list.Some? && |r.list.value| == r.count
  {
    var count: nat := 0;
    var appended := "";
    var filesList: seq<Record> := [];
    var i := 0;
    while i < |es|
      invariant 0 <= i <= |es|
      invariant Fold(cfg, fmt, es[..i]) == WalkState(count, appended, filesList)
    {
      var e := es[i];
      assert es[..i + 1][..i] == es[..i];
      if e.present {
        var ext := FileExt(e.path);
        if AdmitsExt(cfg.filter, ext) && InWindow(cfg.window, e) {
          count := count + 1;
          if cfg.sortInfo {
            filesList := filesList + [ToRecord(e)];
          }
          appended := appended + TableLine(fmt, ToRecord(e)) + "\n";
        }
      }
      i := i + 1;
    }
    assert es[..|es|] == es;
    FoldIsSelected(cfg, fmt, es);
    r := Walked(count, appended, if cfg.sortInfo then Some(filesList) else None);
  }

  /** A vanished file, or one whose extension the filter rejects, leaves the
      walk's result untouched wherever it occurs and whatever its timestamps. */
  lemma SkippedEntryChangesNothing(cfg: WalkConfig, fmt: int -> string, a: seq<Entry>, e: Entry, b: seq<Entry>)
    requires !e.present || !AdmitsExt(cfg.filter, FileExt(e.path))
    ensures Walk(cfg, fmt, a + [e] + b) == Walk(cfg, fmt, a + b)
  {
    SelectedAppend(cfg, a + [e], b);
    SelectedAppend(cfg, a, [e]);
    SelectedAppend(cfg, a, b);
    assert [e][1..] == [];
    assert Selected(cfg, a) + [] == Selected(cfg, a);
  }

  /** A timestamp equal to either bound is never inside the window. */
  lemma BoundsAreExcluded(w: Window, e: Entry)
    requires e.mtime in {w.start, w.end} && e.ctime in {w.start, w.end} && e.atime in {w.start, w.end}
    ensures !InWindow(w, e)
  {
  }

  /** With sorting on, a record is listed exactly when some found entry
      produced it; so a vanished or filtered-out file is never listed unless
      an identical found entry produced the same record. */
  lemma ListedIff(cfg: WalkConfig, fmt: int -> string, es: seq<Entry>, r: Record)
    requires cfg.sortInfo
    ensures r in Walk(cfg, fmt, es).list.value <==> exists e :: e in es && Found(cfg, e) && ToRecord(e) == r
  {
    var sel := Selected(cfg, es);
    if r in Records(sel) {
      var i :| 0 <= i < |sel| && Records(sel)[i] == r;
      SelectedMembers(cfg, es, sel[i]);
    }
    if exists e :: e in es && Found(cfg, e) && ToRecord(e) == r {
      var e :| e in es && Found(cfg, e) && ToRecord(e) == r;
      SelectedMembers(cfg, es, e);
      var i :| 0 <= i < |sel| && sel[i] == e;
      assert Records(sel)[i] == r;
    }
  }

  /** The report only grows as the walk goes on: the text appended for a
      prefix of the entries is a prefix of the text for all of them, and
      the count never decreases. */
  lemma WalkAppendOnly(cfg: WalkConfig, fmt: int -> string, a: seq<Entry>, b: seq<Entry>)
    ensures Walk(cfg, fmt, a).appended <= Walk(cfg, fmt, a + b).appended
    ensures Walk(cfg, fmt, a).count <= Walk(cfg, fmt, a + b).count
  {
    SelectedAppend(cfg, a, b);
    LinesAppend(fmt, Selected(cfg, a), Selected(cfg, b));
    TerminatedAppend(Lines(fmt, Selected(cfg, a)), Lines(fmt, Selected(cfg, b)), "\n");
  }

  lemma {:induction false} TerminatedAppend(xs: seq<string>, ys: seq<string>, sep: string)
    ensures Terminated(xs + ys, sep) == Terminated(xs, sep) + Terminated(ys, sep)
    decreases |ys|
  {
    if |ys| == 0 {
      assert xs + ys == xs;
    } else {
      assert (xs + ys)[..|xs + ys| - 1] == xs + ys[..|ys| - 1];
      TerminatedAppend(xs, ys[..|ys| - 1], sep);
    }
  }

  /** A table line has no newline of its own when neither the path nor
      any formatted time has one. */
  lemma TableLineHasNoNewline(fmt: int -> string, r: Record)
    requires forall t :: '\n' !in fmt(t)
    requires '\n' !in r.path
    ensures '\n' !in TableLine(fmt, r)
  {
    var line := "file=";
    assert '\n' !in line;
    NoCharInAppend(line, r.path, '\n');
    line := line + r.path;
    NoCharInAppend(line, " | mtime=", '\n');
    line := line + " | mtime=";
    NoCharInAppend(line, fmt(r.mtime), '\n');
    line := line + fmt(r.mtime);
    NoCharInAppend(line, " | ctime=", '\n');
    line := line + " | ctime=";
    NoCharInAppend(line, fmt(r.ctime), '\n');
    line := line + fmt(r.ctime);
    NoCharInAppend(line, " | atime=", '\n');
    line := line + " | atime=";
    NoCharInAppend(line, fmt(r.atime), '\n');
  }

  /** When no path and no formatted time contains a newline, the number of
      lines appended to the table report is the returned count. */
  lemma AppendedLineCount(cfg: WalkConfig, fmt: int -> string, es: seq<Entry>)
    requires forall t :: '\n' !in fmt(t)
    requires forall i :: 0 <= i < |es| ==> '\n' !in es[i].path
    ensures CountChar(Walk(cfg, fmt, es).appended, '\n') == Walk(cfg, fmt, es).count
  {
    var sel := Selected(cfg, es);
    var ls := Lines(fmt, sel);
    forall i | 0 <= i < |ls|
      ensures '\n' !in ls[i]
    {
      SelectedMembers(cfg, es, sel[i]);
      TableLineHasNoNewline(fmt, ToRecord(sel[i]));
    }
    CountCharTerminated(ls, '\n');
  }

  /** Without a filter, the decision is existence and the window alone. */
  lemma FoundWithoutFilter(cfg: WalkConfig, e: Entry)
    requires cfg.filter.None?
    ensures Found(cfg, e) <==> e.present && InWindow(cfg.window, e)
  {
  }

  /** Three files, wherever they are, modified on days 10, 12 and 20 with
      the window (9, 15) and no extension filter: the first two are found,
      the third is not. This
      is the documented behaviour without a filter; the source as written
      raises `AttributeError` on the first file instead (see
      `NoExtensionsCounterexample`). */
  lemma WindowExample(fmt: int -> string, a: string, b: string, c: string)
    ensures var es := [Entry(a, true, 10, 1, 1), Entry(b, true, 12, 1, 1), Entry(c, true, 20, 1, 1)];
      var r := Walk(WalkConfig(Window(9, 15), None, true), fmt, es);
      r.count == 2 && r.list == Some([Record(a, 10, 1, 1), Record(b, 12, 1, 1)])
  {
    var es := [Entry(a, true, 10, 1, 1), Entry(b, true, 12, 1, 1), Entry(c, true, 20, 1, 1)];
    var cfg := WalkConfig(Window(9, 15), None, true);
    WindowExampleSelection(cfg, es);
    assert Records([es[0], es[1]]) == [Record(a, 10, 1, 1), Record(b, 12, 1, 1)];
  }

  lemma WindowExampleSelection(cfg: WalkConfig, es: seq<Entry>)
    requires cfg.filter.None? && cfg.window == Window(9, 15)
    requires |es| == 3 && es[0].mtime == 10 && es[1].mtime == 12
    requires es[2].mtime == 20 && es[2].ctime == 1 && es[2].atime == 1
    requires es[0].present && es[1].present
    ensures Selected(cfg, es) == [es[0], es[1]]
  {
    FoundWithoutFilter(cfg, es[0]);
    FoundWithoutFilter(cfg, es[1]);
    FoundWithoutFilter(cfg, es[2]);
    assert es[1..][1..][1..] == [];
    assert Selected(cfg, es[1..][1..]) == [];
    assert Selected(cfg, es[1..]) == [es[1]];
  }

  /** How the walk ends as the source is written: with no extensions given
      the filter attribute was never assigned, so the first file that still
      exists raises `AttributeError`. */
  datatype Outcome = Completed(walked: Walked) | AttributeError(path: string)

  /** The loop state as written, or the file whose filter test crashed. */
  datatype Result = Ok(state: WalkState) | Crashed(at: string)

  /** The loop as written: identical to `Fold` while the filter attribute
      exists, and a crash naming an existing file otherwise. */
  function FoldAsWritten(cfg: WalkConfig, fmt: int -> string, es: seq<Entry>): (r: Result)
    ensures r.Crashed? ==> cfg.filter.None?
    ensures r.Crashed? ==> exists i :: 0 <= i < |es| && es[i].present && es[i].path == r.at
  {
    if |es| == 0 then Ok(WalkState(0, "", []))
    else
      var e := es[|es| - 1];
      match FoldAsWritten(cfg, fmt, es[..|es| - 1])
      case Crashed(p) => Crashed(p)
      case Ok(acc) =>
        if !e.present then Ok(acc)
        else if cfg.filter.None? then Crashed(e.path)
        else Ok(Step(cfg, fmt, acc, e))
  }

  /** `_walker` as written: with extensions given it completes with the
      model's walk; it fails only when no extensions were given. */
  function WalkAsWritten(cfg: WalkConfig, fmt: int -> string, es: seq<Entry>): (r: Outcome)
    ensures cfg.filter.Some? ==> r == Completed(Walk(cfg, fmt, es))
    ensures r.AttributeError? ==> cfg.filter.None?
  {
    AsWrittenAgreesWithFilter(cfg, fmt, es);
    match FoldAsWritten(cfg, fmt, es)
    case Crashed(p) => AttributeError(p)
    case Ok(st) => Completed(Walked(st.count, st.appended, if cfg.sortInfo then Some(st.kept) else None))
  }

  /** As written, a walk without extensions crashes exactly when some file
      still exists, and names the first such file. */
  lemma {:induction false} AsWrittenCrashesWithoutFilter(cfg: WalkConfig, fmt: int -> string, es: seq<Entry>)
    requires cfg.filter.None?
    ensures FoldAsWritten(cfg, fmt, es).Crashed? <==> exists i :: 0 <= i < |es| && es[i].present
    ensures FoldAsWritten(cfg, fmt, es).Crashed? ==>
      exists i :: 0 <= i < |es| && es[i].present && FoldAsWritten(cfg, fmt, es).at == es[i].path
        && forall j :: 0 <= j < i ==> !es[j].present
    decreases |es|
  {
    if |es| > 0 {
      var init := es[..|es| - 1];
      AsWrittenCrashesWithoutFilter(cfg, fmt, init);
      assert forall i :: 0 <= i < |init| ==> init[i] == es[i];
    }
  }

  /** As written, a walk with extensions given is the walk of the model. */
  lemma {:induction false} AsWrittenAgreesWithFilter(cfg: WalkConfig, fmt: int -> string, es: seq<Entry>)
    ensures cfg.filter.Some? ==> FoldAsWritten(cfg, fmt, es) == Ok(Fold(cfg, fmt, es))
    decreases |es|
  {
    if |es| > 0 {
      AsWrittenAgreesWithFilter(cfg, fmt, es[..|es| - 1]);
    }
  }

  /** One existing file inside the window and no extensions: the source as
      written raises `AttributeError`, while the documented behaviour (and
      the model's `Walk`) finds the file. */
  lemma NoExtensionsCounterexample(fmt: int -> string)
    ensures var es := [Entry("a.txt", true, 5, 5, 5)];
      var cfg := WalkConfig(Window(0, 10), None, false);
      WalkAsWritten(cfg, fmt, es) == AttributeError("a.txt") && Walk(cfg, fmt, es).count == 1
  {
    var es := [Entry("a.txt", true, 5, 5, 5)];
    var cfg := WalkConfig(Window(0, 10), None, false);
    assert es[..0] == [];
    assert es[1..] == [];
    assert Selected(cfg, es) == [es[0]];
  }
}
